=== FILE: README.md ===
# HAL turn-taking core in Dafny

HAL is a Node.js voice client for a realtime speech service. It captures microphone audio and streams it over a websocket as base64 `input_audio_buffer.append` messages. When the server reports that speech has stopped, HAL commits the audio and asks for a response. It collects the base64 audio deltas of that response into one buffer and plays the whole buffer once `response.audio.done` arrives. While a response is in progress or playing, the microphone is muted. One second after playback finishes, capture starts again. All of this is coordinated by a handful of module-level flags: `sessionConfigured`, `isRecording`, `recordingStream`, `isResponseInProgress`, `isCurrentlyPlaying` and `responseBuffer`.

This project models that coordination as pure state machines, one per client:

- `TurnCoordinator` models `pc/src/index.js` and `nano/src/index.js`. They run the same dispatch. The capture and playback devices differ (`node-record-lpcm16` and `speaker` on pc; a FIFO and `aplay` on nano), and so do their failure paths, so the model takes a `Variant`. Each handler run is one `Step(v, s, e, env)`. It returns the new state and the ordered list of effects: messages sent, capture started or stopped, a buffer played, a restart timer armed.
  - `Env` holds what a handler learns synchronously: whether the socket is open, whether the capture device opened, whether the sink accepted the buffer.
  - `Event` holds what arrives later: a server message, a capture frame, a capture error, the playback-finished signal, a fired restart timer, or socket error/close.
  - Counters keep track of playbacks and timers that are still outstanding.
- `TurnCoordinatorProps` proves properties of that machine over arbitrary runs.
- `SimpleClient` models `index.js`, where `stopRecording` itself commits and requests a response.
- `AfplayClient` models `realtime_afplay.js`, a one-shot client that greets the server on open and plays the accumulated audio on `response.audio.done`.
- `Base64` models the `data.toString('base64')` / `Buffer.from(s, 'base64')` pair: encoding follows section 4 of RFC 4648, and decoding is lenient like Node's.
- `Effects` defines the effect log and the properties of a log.

## Model

| member | source | states |
|---|---|---|
| Base64.Encode | pc/src/index.js:103-108 | the text sent for a frame has 4·⌈n/3⌉ characters: all but the last 0-2 are from the standard alphabet (`A-Z`, `a-z`, `0-9`, `+`, `/`, never the URL-safe `-`/`_`), and those last characters are exactly the `=` padding for n mod 3 |
| Base64.DecodeEncode | pc/src/index.js:103-108 | decoding the text of an append message gives back exactly the captured frame bytes (the round trip between the client's encoding and the server's decoding) |
| TurnCoordinator.StartRecording | nano/src/index.js:63-101 | capture opens exactly when not already recording, no response is in progress, nothing is playing and the device opens; otherwise the guard makes it a no-op; when the device fails, pc (pc/src/index.js:116-119) leaves the state unchanged, while nano's missing-FIFO return leaves `isRecording` set with no stream |
| TurnCoordinator.StopRecording | pc/src/index.js:122-134 | a live stream is stopped exactly once and both flags cleared; without one nothing happens; afterwards recording-with-stream never holds |
| TurnCoordinator.HandleFrame | pc/src/index.js:103-110 | a frame is forwarded if and only if the socket is open and no response is in progress or playing; the forwarded text is exactly `Encode(data)`, the standard padded base64 of the frame, and decodes back to it; the state is untouched |
| TurnCoordinator.OnSpeechStopped | pc/src/index.js:189-203 | outside a response or playback, capture is stopped first; on an open socket, commit and response.create follow in that order; during a response or playback nothing happens |
| TurnCoordinator.OnResponseCreated | pc/src/index.js:205-209 | a response is marked in progress with an empty buffer; capture goes exactly as stopRecording takes it (a live stream is stopped, otherwise the capture flags are kept, so nano's stream-less `isRecording` survives); timers, playback and session flags are kept |
| TurnCoordinator.OnAudioDelta | pc/src/index.js:211-216 | a present delta appends its decoded bytes to the buffer only while a response is in progress; a missing delta changes nothing; nothing is sent |
| TurnCoordinator.PlayCompleteResponse | pc/src/index.js:55-90 | the whole buffer goes to the sink once if it is non-empty and nothing is already playing; a finish becomes pending; the buffer, capture flags, `sessionConfigured` and pending restarts are untouched; a speaker that fails to open on pc leaves the state unchanged and plays nothing, while a failed temp-file write on nano (nano/src/index.js:20-28) leaves `isCurrentlyPlaying` set with nothing played |
| TurnCoordinator.FinishPlayback | nano/src/index.js:46-60 | the finish (whatever the exit code) empties the buffer, ends the response and playback, and arms exactly one restart timer; capture flags are untouched |
| TurnCoordinator.RestartFires | pc/src/index.js:71-75 | a fired timer consumes one pending restart; with the session configured it runs startRecording, which starts capture if and only if the start guard and device allow it (and wedges nano when the FIFO is missing); without a configured session it does nothing else |
| TurnCoordinator.Reset | pc/src/index.js:254-268 | socket error/close runs stopRecording: a live stream is stopped (exactly stopRecording's effect) and otherwise the capture flags stay as they were, so nano's stream-less `isRecording` survives; response, playback and buffer are cleared; `sessionConfigured` and every pending timer and playback are kept |
| TurnCoordinatorProps.RunPreservesInv | pc/src/index.js:55-134 | every run keeps the flag invariant: buffered audio only inside a response, playback only inside a response, a live stream only while recording outside response and playback, and in pc recording only with a stream |
| TurnCoordinatorProps.ReachableStates | pc/src/index.js:92-93 | in every state reachable from start-up, playing implies a response in progress, pc never records during a response, and a live stream never coexists with a response or with the playing flag (a playback whose finish is still pending can overlap capture after a close, see `PcOverlapAfterClose`) |
| TurnCoordinatorProps.StepCommitsAnswered | pc/src/index.js:194-201 | no handler sends a commit without response.create directly after it, nor response.create without a commit directly before it |
| TurnCoordinatorProps.NoTurnMessagesElsewhere | pc/src/index.js:169-268 | only the speech_stopped case sends commit or response.create; no other message, device, timer or socket handler does |
| TurnCoordinatorProps.RunCommitsAnswered | pc/src/index.js:189-203 | across any sequence of handler runs, commits and response requests come in adjacent pairs: every commit is immediately followed by response.create and every response.create immediately follows a commit |
| TurnCoordinatorProps.StepMicGated | pc/src/index.js:103-109 | an append message is only ever sent by a frame, on an open socket, while neither a response nor playback is under way |
| TurnCoordinatorProps.DeltasAccumulate | pc/src/index.js:211-216 | while a response is in progress and nothing starts or ends it, the buffer grows by exactly the decoded deltas in arrival order, whatever else is interleaved |
| TurnCoordinatorProps.ResponseCollectsDeltas | pc/src/index.js:205-216 | after response.created, the buffer is the in-order concatenation of the response's decoded deltas, with nothing left over from earlier |
| TurnCoordinatorProps.CollectSilently | pc/src/index.js:211-223 | while a response collects deltas (no audio.done yet), nothing is played, the buffer grows by exactly the decoded deltas and playback stays off |
| TurnCoordinatorProps.ResponsePlayedOnce | pc/src/index.js:205-223 | response.created, then its deltas, then audio.done with a working sink hands the sink the in-order concatenation of the decoded deltas exactly once, as the last effect, and leaves one playback pending |
| TurnCoordinatorProps.NoReplayBeforeFinish | pc/src/index.js:218-223 | once playback has started, no event short of the finish signal or the socket going down plays anything again; a repeated audio.done replays nothing |
| TurnCoordinatorProps.AudioDoneWhilePlayingIgnored | pc/src/index.js:218-223 | audio.done while already playing changes nothing and sends nothing |
| TurnCoordinatorProps.CaptureErrorSendsNothing | pc/src/index.js:111-114 | a capture error does exactly what stopRecording does and sends nothing on the socket, so pc and nano never commit on a capture error |
| TurnCoordinatorProps.StraySignalsIgnored | pc/src/index.js:64-75 | a finish or restart signal acts only on an outstanding playback or timer; a finish for an outstanding playback arms exactly one restart |
| TurnCoordinatorProps.LateDeltaDropped | pc/src/index.js:64-70 | a delta that arrives during playback is buffered and then discarded by the finish handler without being played |
| TurnCoordinatorProps.StopIdempotent | pc/src/index.js:122-123 | stopping twice is stopping once |
| TurnCoordinatorProps.SessionUpdatedOnce | pc/src/index.js:175-181 | the first session.updated sets the flag and runs startRecording, so from an idle state with a working device it opens capture; later ones change nothing |
| TurnCoordinatorProps.ObserverEventsChangeNothing | pc/src/index.js:183-247 | speech_started, response.done, transcripts, item creation, error messages (whether or not they mention "buffer too small") and unlisted types change no state and send nothing |
| TurnCoordinatorProps.PcSocketDownResets | pc/src/index.js:262-268 | after a socket error or close, pc has capture off, no response, no playback and an empty buffer, and it still counts as configured |
| TurnCoordinatorProps.PcRestartAfterClose | pc/src/index.js:64-76 | a playback still pending when the socket closes later arms a restart that reopens the microphone, because close cancels neither |
| TurnCoordinatorProps.PcOverlapAfterClose | pc/src/index.js:254-268 | with a playback and a restart both outstanding, close then the restart timer reopens the microphone while the old playback's finish is still pending, so capture and playback overlap |
| TurnCoordinatorProps.NanoCaptureWedged | nano/src/index.js:63-115 | once nano has `isRecording` set with no stream, no sequence of events ever opens or stops capture again, and the flag stays set |
| TurnCoordinatorProps.NanoPlaybackWedged | nano/src/index.js:20-29 | when the temp-file write fails, nano stays "playing" with no player left to finish, so until the socket goes down capture never starts again |
| TurnCoordinatorProps.NanoMissingFifoWedges | nano/src/index.js:156-162 | that wedged state is reached by the first session.updated when the FIFO is missing |
| SimpleClient.StartRecording | index.js:51-91 | capture opens exactly when not already recording and the device opens; if the device fails, `isRecording` is cleared again |
| SimpleClient.StopRecording | index.js:93-115 | a live stream is stopped, and then, on an open socket, commit and response.create are sent in that order; without a stream nothing happens |
| SimpleClient.HandleFrame | index.js:72-81 | every frame is forwarded whenever the socket is open, with no mute, as exactly `Encode(data)`, which decodes back to the frame |
| SimpleClient.OnSpeechStopped | index.js:133-142 | speech-stop performs stopRecording's effects and leaves stopRecording's state, then arms one restart timer |
| SimpleClient.RestartFires | index.js:137-141 | the timer consumes one pending restart and, with the session configured, runs startRecording: capture starts if and only if it is off and the device opens |
| SimpleClient.Step | index.js:117-165 | every handler's log pairs each commit with a preceding capture stop and a following response.create; `sessionConfigured` is never cleared |
| SimpleClient.RunPreservesInv | index.js:51-115 | `isRecording` and the stream are set and cleared together in every run |
| SimpleClient.RunCommitOrder | index.js:99-111 | across any run, every commit directly follows a capture stop and is directly followed by response.create |
| SimpleClient.StopIdempotent | index.js:93-94 | stopping twice is stopping once, even if the socket state changed in between |
| SimpleClient.SessionUpdatedOnce | index.js:123-129 | the first session.updated sets `sessionConfigured` and runs startRecording; every later one changes nothing, so only the first starts capture |
| SimpleClient.CaptureErrorCommits | index.js:82-85 | a capture error while recording on an open socket commits the partial audio and requests a response |
| SimpleClient.SpeechStopThenRestart | index.js:133-142 | speech-stop followed by its timer resumes capture exactly when the session is configured |
| AfplayClient.OnOpen | realtime_afplay.js:43-62 | on open the client sends the user message and then response.create, and changes nothing else |
| AfplayClient.OnAudioData | realtime_afplay.js:68-76 | a chunk appends its decoded bytes and marks audio as being received |
| AfplayClient.OnAudioDone | realtime_afplay.js:82-91 | done plays the whole buffer once if it is non-empty, then empties it and clears the receiving flag |
| AfplayClient.Step | realtime_afplay.js:64-105 | transcripts, unlisted types and socket error/close change nothing and send nothing |
| AfplayClient.StepConservesAudio | realtime_afplay.js:68-91 | each message moves bytes either from the chunk into the buffer or from the buffer to the player, never losing or repeating any |
| AfplayClient.PlayedExactlyOnce | realtime_afplay.js:64-97 | over any run of handlers that each finish before the next message, the played bytes followed by the remaining buffer equal the starting buffer followed by every received chunk, in order |
| AfplayClient.ChunksKeepReceiving | realtime_afplay.js:69-72 | a run of chunks leaves the receiving flag set and plays nothing |
| AfplayClient.ResponsePlaysOnce | realtime_afplay.js:68-91 | chunks and then done, starting idle, play the concatenation of the chunks once (nothing when it is empty) and end idle |
| AfplayClient.RunAppend | realtime_afplay.js:64-97 | handling two message sequences one after the other is the same as handling their concatenation |

## Behaviour worth knowing

The model follows the code. These consequences of the code are stated as lemmas:

- The turn state is a set of independent flags, not one state value, so combinations a single turn state would rule out are reachable. In nano, the missing-FIFO return leaves `isRecording` set with no stream, and no later event recovers from that (`NanoCaptureWedged`). In the same way, a failed temp-file write leaves nano "playing" until the socket goes down (`NanoPlaybackWedged`).
- A socket close cancels neither pending restart timers nor a playback in flight. A playback finish or a restart after close still reopens the microphone (`PcRestartAfterClose`). With both a playback and a restart outstanding, the microphone can even reopen while the old playback has still to finish (`PcOverlapAfterClose`).
- In `index.js` the capture-error handler calls `stopRecording`, which commits the partial audio and requests a response (`SimpleClient.CaptureErrorCommits`). pc and nano only stop capture on a capture error and send nothing (`CaptureErrorSendsNothing`).
- In pc and nano, deltas that arrive while a response is playing are appended and then dropped by the finish handler (`LateDeltaDropped`).
- `realtime_afplay.js` has the same kind of loss. Chunks that arrive while `await playAudio(...)` is pending (realtime_afplay.js:86-88) are appended and then wiped by the buffer reset on line 88. `AfplayClient.PlayedExactlyOnce` holds only in the model, where each handler finishes before the next message is handled (see "Left out").

## Left out

- Connection setup (URL, auth headers, dotenv), the `open` handlers of pc, nano and `index.js` that send the constant `session.update` payload, and SIGINT/SIGTERM shutdown are not modelled: they hold no turn-taking logic.
- JSON parsing and its catch block, and all console logging, are left out. A message the server sends is modelled by its type alone.
- Capture devices, `speaker`, `aplay`, the temp file and the FIFO are replaced by their outcomes. The outcome is an `Env` input (did it open, was it written) or an event (frame, error, finished).
- The 500 ms `speaker.end()` timer and the speaker's `finish` event are merged into one `PlaybackFinished` signal. `currentSpeaker` is not tracked.
- The 1000 ms restart delay is a `RestartTimer` event with no clock. Timers and pending finishes are counted, not ordered by time.
- Exceptions are modelled only where the code catches them around device setup. The following are not modelled:
  - an exception from `recordingStream.stop()` or `destroy()`, which leaves `recordingStream` set;
  - a failing `unlinkSync` in the aplay close handler;
  - a missing `event.item` or `event.error`, which throws inside the message handler's try block.
- Frames can arrive at any time in the model, including after the stream was stopped. The frame handler does not check for a stream, and neither does the model.
- The aplay exit code is not carried, because the close handler does not look at it.
- Base64.DecodeEncode: decoding skips characters outside the alphabet, accepts `-` and `_`, and stops at the first `=`. This approximates Node's lenient decoder. It is exact for the strings `Encode` produces.
- AfplayClient.PlayedExactlyOnce: the model treats each `message` handler of `realtime_afplay.js` as atomic. In the code, the `await` on `playAudio` lets later messages run before the buffer is reset, and chunks appended during that wait are discarded unplayed (realtime_afplay.js:86-88). The conservation law therefore holds only when each response's audio.done handler finishes before the next chunk arrives.
- `realtime_afplay.js`: the missing `data` field that would make `Buffer.from` throw, and the `ffplay` subprocess started by `playAudio` and its temp file, are not modelled.
- `realtime.js` and `face_detection_with_audio.py` are not part of this model.

=== FILE: afplay_client.dfy ===
/**
  The accumulate-then-play handler of `realtime_afplay.js`: the opening
  greeting, and a `message` switch that gathers `response.audio.data` chunks
  and plays them all at once on `response.audio.done`.
 */
module AfplayClient {
  import opened Common
  import opened Effects
  import Base64

  datatype State = State(
    buffer: seq<byte>,  // audioBuffer
    receiving: bool)    // isReceivingAudio

  const Init := State([], false)

  datatype Event =
    | Open                        // the socket's `open` handler
    | AudioData(data: string)     // "response.audio.data", base64 in `data`
    | TranscriptDelta(text: string)
    | AudioDone                   // "response.audio.done"
    | TranscriptDone(text: string)
    | Unhandled(kind: string)     // every other type, "response.audio.delta" included
    | SocketError
    | SocketClose

  type Transition = Effects.Transition<State>

  /** The `open` handler (realtime_afplay.js:43-62). */
  function OnOpen(s: State): (r: Transition)
    ensures r.state == s
    ensures r.out == [Send(ItemCreate), Send(ResponseCreate)]
  {
    Transition(s, [Send(ItemCreate), Send(ResponseCreate)])
  }

  /** The `response.audio.data` case (realtime_afplay.js:68-76). */
  function OnAudioData(s: State, data: string): (r: Transition)
    ensures r.state.receiving
    ensures r.state.buffer == s.buffer + Base64.Decode(data)
    ensures r.out == []
  {
    Transition(State(s.buffer + Base64.Decode(data), true), [])
  }

  /** The `response.audio.done` case (realtime_afplay.js:82-91). */
  function OnAudioDone(s: State): (r: Transition)
    ensures !r.state.receiving && r.state.buffer == []
    ensures |s.buffer| == 0 ==> r.out == []
    ensures |s.buffer| > 0 ==> r.out == [Play(s.buffer)]
  {
    if |s.buffer| > 0 then Transition(State([], false), [Play(s.buffer)])
    else Transition(s.(receiving := false), [])
  }

  /** The `message` switch (realtime_afplay.js:64-97) and the socket handlers (99-105),
      one message at a time. */
  function Step(s: State, e: Event): (r: Transition)
    ensures !e.Open? && !e.AudioData? && !e.AudioDone? ==> r == Transition(s, [])
  {
    match e
    case Open => OnOpen(s)
    case AudioData(data) => OnAudioData(s, data)
    case AudioDone => OnAudioDone(s)
    case TranscriptDelta(_) => Transition(s, [])
    case TranscriptDone(_) => Transition(s, [])
    case Unhandled(_) => Transition(s, [])
    case SocketError => Transition(s, [])
    case SocketClose => Transition(s, [])
  }

  function Run(s: State, events: seq<Event>): (r: Transition)
    decreases |events|
  {
    if |events| == 0 then Transition(s, [])
    else
      var t := Step(s, events[0]);
      var rest := Run(t.state, events[1..]);
      Transition(rest.state, t.out + rest.out)
  }

  /** The decoded payloads of the audio-data messages among the events, in order. */
  function DataBytes(events: seq<Event>): seq<byte>
    decreases |events|
  {
    if |events| == 0 then []
    else (if events[0].AudioData? then Base64.Decode(events[0].data) else []) + DataBytes(events[1..])
  }

  // ---------------------------------------------------------------- properties

  /** One message moves bytes from the incoming chunk to the buffer or from the buffer
      to the player, never losing or repeating any. */
  lemma StepConservesAudio(s: State, e: Event)
    ensures var r := Step(s, e);
      Played(r.out) + r.state.buffer == s.buffer + (if e.AudioData? then Base64.Decode(e.data) else [])
  {
    var r := Step(s, e);
    if e.AudioDone? && |s.buffer| > 0 {
      assert r.out == [Play(s.buffer)];
      assert Played(r.out) == s.buffer + Played([]);
    }
  }

  /** No chunk is dropped or duplicated: what has been played, followed by what is still
      buffered, is the starting buffer followed by every received chunk in order. */
  lemma {:induction false} PlayedExactlyOnce(s: State, events: seq<Event>)
    ensures Played(Run(s, events).out) + Run(s, events).state.buffer == s.buffer + DataBytes(events)
    decreases |events|
  {
    if |events| > 0 {
      var t := Step(s, events[0]);
      var rest := Run(t.state, events[1..]);
      var chunk := if events[0].AudioData? then Base64.Decode(events[0].data) else [];
      RunSplitsPlayed(s, events);
      PlayedExactlyOnce(t.state, events[1..]);
      StepConservesAudio(s, events[0]);
      assert DataBytes(events) == chunk + DataBytes(events[1..]);
      SeqRegroup(Played(t.out), t.state.buffer, DataBytes(events[1..]), s.buffer, chunk);
    }
  }

  /** The played bytes and buffer after a run, split at its first message. */
  lemma RunSplitsPlayed(s: State, events: seq<Event>)
    requires |events| > 0
    ensures var t := Step(s, events[0]);
      var rest := Run(t.state, events[1..]);
      Played(Run(s, events).out) + Run(s, events).state.buffer
        == Played(t.out) + (Played(rest.out) + rest.state.buffer)
  {
    var t := Step(s, events[0]);
    var rest := Run(t.state, events[1..]);
    assert Run(s, events) == Transition(rest.state, t.out + rest.out);
    PlayedConcat(t.out, rest.out);
    SeqAssoc(Played(t.out), Played(rest.out), rest.state.buffer);
  }

  /** The receiving flag: set by the first chunk and kept by later ones; chunks alone
      play nothing. */
  lemma {:induction false} ChunksKeepReceiving(s: State, events: seq<Event>)
    requires |events| > 0
    requires forall i :: 0 <= i < |events| ==> events[i].AudioData?
    ensures Run(s, events).state.receiving
    ensures Run(s, events).out == []
    decreases |events|
  {
    var t := Step(s, events[0]);
    assert t.state.receiving && t.out == [];
    var rest := events[1..];
    if |rest| > 0 {
      assert forall i :: 0 <= i < |rest| ==> rest[i].AudioData? by {
        forall i | 0 <= i < |rest| ensures rest[i].AudioData? {
          assert rest[i] == events[i + 1];
        }
      }
      ChunksKeepReceiving(t.state, rest);
    }
  }

  /** One response: chunks then done, starting idle, plays the concatenation once
      (or nothing when there was no audio) and ends idle. */
  lemma ResponsePlaysOnce(events: seq<Event>)
    requires |events| > 0
    requires forall i :: 0 <= i < |events| ==> events[i].AudioData?
    ensures var r := Run(Init, events + [AudioDone]);
      && r.state == Init
      && r.out == (if DataBytes(events) == [] then [] else [Play(DataBytes(events))])
  {
    var mid := Run(Init, events);
    var bytes := DataBytes(events);
    assert mid.out == [] && mid.state.buffer == bytes by {
      ChunksKeepReceiving(Init, events);
      PlayedExactlyOnce(Init, events);
      assert Played(mid.out) == [];
      assert Played(mid.out) + mid.state.buffer == mid.state.buffer;
      assert Init.buffer + bytes == bytes;
    }
    var done := OnAudioDone(mid.state);
    assert Run(Init, events + [AudioDone]) == Transition(done.state, done.out) by {
      RunAppend(Init, events, [AudioDone]);
      assert Step(mid.state, AudioDone) == done;
      assert Run(mid.state, [AudioDone]) == Transition(done.state, done.out + []);
      assert mid.out + (done.out + []) == done.out;
    }
  }

  /** Running two event sequences one after the other. */
  lemma {:induction false} RunAppend(s: State, a: seq<Event>, b: seq<Event>)
    ensures Run(s, a + b).state == Run(Run(s, a).state, b).state
    ensures Run(s, a + b).out == Run(s, a).out + Run(Run(s, a).state, b).out
    decreases |a|
  {
    if |a| == 0 {
      assert a + b == b;
    } else {
      var t := Step(s, a[0]);
      assert (a + b)[0] == a[0] && (a + b)[1..] == a[1..] + b;
      RunAppend(t.state, a[1..], b);
    }
  }
}

=== FILE: base64.dfy ===
/**
  The base64 codec the clients use through Node's `Buffer`: `data.toString('base64')`
  on outgoing microphone frames and `Buffer.from(delta, 'base64')` on incoming audio.

  Encoding follows section 4 of RFC 4648 (standard alphabet, `=` padding).
  Decoding is lenient in the way Node's decoder is: characters outside the
  alphabet are skipped, the URL-safe characters `-` and `_` of section 5 of RFC 4648 are
  accepted, decoding stops at the first `=`, and a trailing group of two or
  three characters yields one or two bytes.
 */
module Base64 {
  import opened Common

  /** A six-bit group: the value of one base64 character. */
  type sextet = x: int | 0 <= x < 64

  /** The character of the standard alphabet (RFC 4648, Table 1) for a value. */
  function CharOf(v: sextet): (c: char)
    ensures c != '=' && IsStandardChar(c)
  {
    if v < 26 then ('A' as int + v) as char
    else if v < 52 then ('a' as int + (v - 26)) as char
    else if v < 62 then ('0' as int + (v - 52)) as char
    else if v == 62 then '+'
    else '/'
  }

  /** The value the decoder gives a character, or None for a character it skips. */
  function ValueOf(c: char): Option<sextet>
  {
    if 'A' <= c <= 'Z' then Some(c as int - 'A' as int)
    else if 'a' <= c <= 'z' then Some(c as int - 'a' as int + 26)
    else if '0' <= c <= '9' then Some(c as int - '0' as int + 52)
    else if c == '+' || c == '-' then Some(62)
    else if c == '/' || c == '_' then Some(63)
    else None
  }

  /** The 64 characters of the standard alphabet: no URL-safe `-`/`_` and no `=`. */
  predicate IsStandardChar(c: char) {
    'A' <= c <= 'Z' || 'a' <= c <= 'z' || '0' <= c <= '9' || c == '+' || c == '/'
  }

  // ---------------------------------------------------------------- encoding

  /** The sextets of a byte string: four per full 3-byte block, then 2 or 3 for a tail. */
  function Sextets(b: seq<byte>): (r: seq<sextet>)
    ensures |r| == (4 * |b| + 2) / 3
    decreases |b|
  {
    if |b| == 0 then []
    else if |b| == 1 then [b[0] / 4, (b[0] % 4) * 16]
    else if |b| == 2 then [b[0] / 4, (b[0] % 4) * 16 + b[1] / 16, (b[1] % 16) * 4]
    else [b[0] / 4, (b[0] % 4) * 16 + b[1] / 16, (b[1] % 16) * 4 + b[2] / 64, b[2] % 64]
         + Sextets(b[3..])
  }

  function Chars(v: seq<sextet>): (s: string)
    ensures |s| == |v|
    ensures forall i :: 0 <= i < |v| ==> s[i] == CharOf(v[i])
  {
    seq(|v|, i requires 0 <= i < |v| => CharOf(v[i]))
  }

  /** The `=` characters that complete the last quantum of an n-byte input. */
  function Padding(n: nat): (p: string)
    ensures |p| == (3 - n % 3) % 3
  {
    if n % 3 == 1 then "==" else if n % 3 == 2 then "=" else ""
  }

  /** `Buffer.toString('base64')`. */
  function Encode(b: seq<byte>): (s: string)
    ensures |s| == 4 * ((|b| + 2) / 3)
    ensures |Padding(|b|)| <= |s|
    ensures forall i :: 0 <= i < |s| - |Padding(|b|)| ==> IsStandardChar(s[i])
    ensures s[|s| - |Padding(|b|)|..] == Padding(|b|)
  {
    var body := Chars(Sextets(b));
    var pad := Padding(|b|);
    assert |body| + |pad| == 4 * ((|b| + 2) / 3);
    assert (body + pad)[|body|..] == pad;
    body + pad
  }

  // ---------------------------------------------------------------- decoding

  /** The values of the characters the decoder reads: skipped ones dropped, stopping at `=`. */
  function Values(s: string): seq<sextet>
    decreases |s|
  {
    if |s| == 0 || s[0] == '=' then []
    else match ValueOf(s[0])
      case None => Values(s[1..])
      case Some(v) => [v] + Values(s[1..])
  }

  /** Reassembles bytes from sextets: three per group of four, one or two for a tail. */
  function Bytes(v: seq<sextet>): seq<byte>
    decreases |v|
  {
    if |v| < 2 then []
    else
      var b0: byte := v[0] as int * 4 + v[1] as int / 16;
      if |v| == 2 then [b0]
      else
        var b1: byte := (v[1] as int % 16) * 16 + v[2] as int / 4;
        if |v| == 3 then [b0, b1]
        else
          var b2: byte := (v[2] as int % 4) * 64 + v[3] as int;
          [b0, b1, b2] + Bytes(v[4..])
  }

  /** `Buffer.from(s, 'base64')`. */
  function Decode(s: string): seq<byte>
  {
    Bytes(Values(s))
  }

  // ---------------------------------------------------------------- round trip

  lemma ValueOfCharOf(v: sextet)
    ensures ValueOf(CharOf(v)) == Some(v)
  {
  }

  /** Reassembling the sextets of a byte string gives back the byte string. */
  lemma {:induction false} BytesOfSextets(b: seq<byte>)
    ensures Bytes(Sextets(b)) == b
    decreases |b|
  {
    if |b| >= 3 {
      var head: seq<sextet> := [b[0] / 4, (b[0] % 4) * 16 + b[1] / 16, (b[1] % 16) * 4 + b[2] / 64, b[2] % 64];
      var v := head + Sextets(b[3..]);
      assert v[..4] == head && v[4..] == Sextets(b[3..]);
      BytesOfSextets(b[3..]);
      assert b == [b[0], b[1], b[2]] + b[3..];
    }
  }

  /** Decoding undoes encoding: the payload a frame is sent as decodes to the frame. */
  lemma DecodeEncode(b: seq<byte>)
    ensures Decode(Encode(b)) == b
  {
    ValuesPrefix(Sextets(b), Padding(|b|));
    assert Values(Padding(|b|)) == [];
    assert Sextets(b) + [] == Sextets(b);
    BytesOfSextets(b);
  }

  /** Reading a body of alphabet characters followed by anything. */
  lemma {:induction false} ValuesPrefix(v: seq<sextet>, rest: string)
    ensures Values(Chars(v) + rest) == v + Values(rest)
    decreases |v|
  {
    if |v| == 0 {
      assert Chars(v) + rest == rest;
    } else {
      var s := Chars(v) + rest;
      ValueOfCharOf(v[0]);
      assert s[0] == CharOf(v[0]);
      assert s[1..] == Chars(v[1..]) + rest;
      ValuesPrefix(v[1..], rest);
    }
  }
}

=== FILE: common.dfy ===
/** Types shared by every client variant. */
module Common {

  /** One octet of a Node `Buffer`. */
  type byte = x: int | 0 <= x < 256

  /** A value that may be absent, such as an optional field of a JSON event. */
  datatype Option<+T> = None | Some(value: T)
}

=== FILE: effects.dfy ===
/**
  What a handler does to the outside world, in the order it does it: messages
  sent on the websocket and commands given to the audio devices and timers.
 */
module Effects {
  import opened Common

  /** The JSON messages the clients send, by their `type` field. */
  datatype Outbound =
    | ItemCreate                  // "conversation.item.create", the fixed "Hello!" user message
    | Append(audio: string)       // "input_audio_buffer.append", audio = base64 of one frame
    | Commit                      // "input_audio_buffer.commit"
    | ResponseCreate              // "response.create"

  datatype Effect =
    | Send(msg: Outbound)         // ws.send
    | StartCapture                // a capture stream was opened and its handlers attached
    | StopCapture                 // the capture stream was stopped or destroyed
    | Play(audio: seq<byte>)      // the whole buffer handed to the speaker / player
    | ArmRestart                  // a 1000 ms restart timer was set

  /** One handler invocation: the state it leaves and the effects it produced. */
  datatype Transition<S> = Transition(state: S, out: seq<Effect>)

  /** Every commit in the log is immediately followed by a response request. */
  predicate CommitsAnswered(log: seq<Effect>) {
    forall i :: 0 <= i < |log| && log[i] == Send(Commit) ==>
      i + 1 < |log| && log[i + 1] == Send(ResponseCreate)
  }

  lemma CommitsAnsweredConcat(a: seq<Effect>, b: seq<Effect>)
    requires CommitsAnswered(a) && CommitsAnswered(b)
    ensures CommitsAnswered(a + b)
  {
    forall i | 0 <= i < |a + b| && (a + b)[i] == Send(Commit)
      ensures i + 1 < |a + b| && (a + b)[i + 1] == Send(ResponseCreate)
    {
      if i < |a| {
        assert a[i] == Send(Commit);
      } else {
        assert b[i - |a|] == Send(Commit);
      }
    }
  }

  /** Every response request in the log comes directly after a commit. */
  predicate ResponsesFollowCommits(log: seq<Effect>) {
    forall i :: 0 <= i < |log| && log[i] == Send(ResponseCreate) ==>
      0 < i && log[i - 1] == Send(Commit)
  }

  lemma ResponsesFollowCommitsConcat(a: seq<Effect>, b: seq<Effect>)
    requires ResponsesFollowCommits(a) && ResponsesFollowCommits(b)
    ensures ResponsesFollowCommits(a + b)
  {
    forall i | 0 <= i < |a + b| && (a + b)[i] == Send(ResponseCreate)
      ensures 0 < i && (a + b)[i - 1] == Send(Commit)
    {
      if i < |a| {
        assert a[i] == Send(ResponseCreate);
      } else {
        assert b[i - |a|] == Send(ResponseCreate);
      }
    }
  }

  /** No effect of the log plays audio. */
  predicate Silent(log: seq<Effect>) {
    forall i :: 0 <= i < |log| ==> !log[i].Play?
  }

  lemma SilentConcat(a: seq<Effect>, b: seq<Effect>)
    requires Silent(a) && Silent(b)
    ensures Silent(a + b)
  {
    forall i | 0 <= i < |a + b| ensures !(a + b)[i].Play? {
      if i >= |a| {
        assert (a + b)[i] == b[i - |a|];
      }
    }
  }

  /** The bytes handed to the audio sink, in order, across a log. */
  function Played(log: seq<Effect>): seq<byte>
    decreases |log|
  {
    if |log| == 0 then []
    else (if log[0].Play? then log[0].audio else []) + Played(log[1..])
  }

  lemma {:induction false} PlayedConcat(a: seq<Effect>, b: seq<Effect>)
    ensures Played(a + b) == Played(a) + Played(b)
    decreases |a|
  {
    if |a| == 0 {
      assert a + b == b;
    } else {
      assert (a + b)[1..] == a[1..] + b;
      PlayedConcat(a[1..], b);
    }
  }

  lemma {:induction false} SilentPlaysNothing(log: seq<Effect>)
    requires Silent(log)
    ensures Played(log) == []
    decreases |log|
  {
    if |log| > 0 {
      assert Silent(log[1..]) by {
        forall i | 0 <= i < |log[1..]| ensures !log[1..][i].Play? {
          assert log[1..][i] == log[i + 1];
        }
      }
      SilentPlaysNothing(log[1..]);
    }
  }

  // Regrouping steps for concatenated logs and buffers, kept as lemmas so that each
  // caller sees only the one equation it needs.

  lemma SeqAssoc<T>(a: seq<T>, b: seq<T>, c: seq<T>)
    ensures (a + b) + c == a + (b + c)
  {
  }

  lemma SeqRegroup<T>(a: seq<T>, b: seq<T>, c: seq<T>, x: seq<T>, y: seq<T>)
    requires a + b == x + y
    ensures a + (b + c) == x + (y + c)
  {
    calc {
      a + (b + c);
      (a + b) + c;
      (x + y) + c;
      x + (y + c);
    }
  }
}

=== FILE: simple_client.dfy ===
/**
  The simpler variant in `index.js`: no playback, and `stopRecording` itself
  commits the captured audio and asks for a response. Speech-stop re-arms
  capture through a 1000 ms timer.
 */
module SimpleClient {
  import opened Common
  import opened Effects
  import Base64

  datatype State = State(
    sessionConfigured: bool,
    isRecording: bool,
    hasStream: bool,          // recordingStream !== null
    pendingRestarts: nat)     // restart timers set and not yet fired

  const Init := State(false, false, false, 0)

  datatype Env = Env(
    wsOpen: bool,     // ws.readyState === WebSocket.OPEN
    captureOk: bool)  // recorder.record did not throw

  datatype Event =
    | SessionUpdated
    | SpeechStarted
    | SpeechStopped
    | Committed               // "input_audio_buffer.committed"
    | ItemCreated
    | Unhandled(kind: string)
    | Frame(data: seq<byte>)
    | CaptureError
    | RestartTimer
    | SocketError
    | SocketClose

  datatype Input = Input(event: Event, env: Env)

  type Transition = Effects.Transition<State>

  function Unchanged(s: State): Transition {
    Transition(s, [])
  }

  /** Every commit in the log comes right after the capture stream was stopped. */
  predicate CommitsAfterStop(log: seq<Effect>) {
    forall i :: 0 <= i < |log| && log[i] == Send(Commit) ==> 0 < i && log[i - 1] == StopCapture
  }

  /** startRecording (index.js:51-91). */
  function StartRecording(s: State, env: Env): (r: Transition)
    ensures s.isRecording ==> r == Unchanged(s)
    ensures !s.isRecording && env.captureOk ==>
              r == Transition(s.(isRecording := true, hasStream := true), [StartCapture])
    ensures !s.isRecording && !env.captureOk ==> r == Unchanged(s)
  {
    if s.isRecording then Unchanged(s)
    else if env.captureOk then Transition(s.(isRecording := true, hasStream := true), [StartCapture])
    // recorder.record threw: the catch clears isRecording again
    else Unchanged(s)
  }

  /** stopRecording (index.js:93-115): stops capture, then commits and requests a response. */
  function StopRecording(s: State, env: Env): (r: Transition)
    ensures !s.isRecording || !s.hasStream ==> r == Unchanged(s)
    ensures s.isRecording && s.hasStream ==>
              && r.state == s.(isRecording := false, hasStream := false)
              && r.out == [StopCapture] + (if env.wsOpen then [Send(Commit), Send(ResponseCreate)] else [])
    ensures CommitsAnswered(r.out) && CommitsAfterStop(r.out) && ResponsesFollowCommits(r.out)
  {
    if !s.isRecording || !s.hasStream then Unchanged(s)
    else
      var sent := if env.wsOpen then [Send(Commit), Send(ResponseCreate)] else [];
      Transition(s.(isRecording := false, hasStream := false), [StopCapture] + sent)
  }

  /** The capture stream's `data` handler (index.js:72-81): no playback gating. */
  function HandleFrame(s: State, data: seq<byte>, env: Env): (r: Transition)
    ensures r.state == s
    ensures |r.out| == (if env.wsOpen then 1 else 0)
    ensures env.wsOpen ==>
              r.out[0].Send? && r.out[0].msg.Append? && Base64.Decode(r.out[0].msg.audio) == data
    ensures env.wsOpen ==> r.out == [Send(Append(Base64.Encode(data)))]
  {
    if env.wsOpen then
      Base64.DecodeEncode(data);
      Transition(s, [Send(Append(Base64.Encode(data)))])
    else Unchanged(s)
  }

  /** The `speech_stopped` case (index.js:133-142): stop, then arm a restart. */
  function OnSpeechStopped(s: State, env: Env): (r: Transition)
    ensures r.state.pendingRestarts == s.pendingRestarts + 1
    ensures !r.state.isRecording || !r.state.hasStream
    ensures r.out == StopRecording(s, env).out + [ArmRestart]
    ensures r.state == StopRecording(s, env).state.(pendingRestarts := s.pendingRestarts + 1)
    ensures r.state.sessionConfigured == s.sessionConfigured
  {
    var t := StopRecording(s, env);
    Transition(t.state.(pendingRestarts := t.state.pendingRestarts + 1), t.out + [ArmRestart])
  }

  /** The restart timer body (index.js:137-141). */
  function RestartFires(s: State, env: Env): (r: Transition)
    requires s.pendingRestarts > 0
    ensures r.state.pendingRestarts == s.pendingRestarts - 1
    ensures r.out == [StartCapture] <==> s.sessionConfigured && !s.isRecording && env.captureOk
    ensures r.out != [StartCapture] ==> r == Unchanged(s.(pendingRestarts := s.pendingRestarts - 1))
    ensures s.sessionConfigured ==> r == StartRecording(s.(pendingRestarts := s.pendingRestarts - 1), env)
  {
    var s' := s.(pendingRestarts := s.pendingRestarts - 1);
    if s'.sessionConfigured then StartRecording(s', env) else Unchanged(s')
  }

  /** The message switch (index.js:117-155) and the stream, timer and socket handlers
      (index.js:72-85, 157-165). */
  function Step(s: State, e: Event, env: Env): (r: Transition)
    ensures CommitsAnswered(r.out) && CommitsAfterStop(r.out) && ResponsesFollowCommits(r.out)
    ensures s.sessionConfigured ==> r.state.sessionConfigured
  {
    match e
    case SessionUpdated =>
      if s.sessionConfigured then Unchanged(s)
      else StartRecording(s.(sessionConfigured := true), env)
    case SpeechStarted => Unchanged(s)
    case SpeechStopped => OnSpeechStopped(s, env)
    case Committed => Unchanged(s)
    case ItemCreated => Unchanged(s)
    case Unhandled(_) => Unchanged(s)
    case Frame(data) => HandleFrame(s, data, env)
    case CaptureError => StopRecording(s, env)
    case RestartTimer =>
      if s.pendingRestarts == 0 then Unchanged(s) else RestartFires(s, env)
    case SocketError => StopRecording(s, env)
    case SocketClose => StopRecording(s, env)
  }

  function Run(s: State, inputs: seq<Input>): (r: Transition)
    decreases |inputs|
  {
    if |inputs| == 0 then Unchanged(s)
    else
      var t := Step(s, inputs[0].event, inputs[0].env);
      var rest := Run(t.state, inputs[1..]);
      Transition(rest.state, t.out + rest.out)
  }

  // ---------------------------------------------------------------- properties

  /** The recording flag and the stream are set and cleared together. */
  predicate Inv(s: State) {
    s.isRecording <==> s.hasStream
  }

  lemma {:induction false} RunPreservesInv(s: State, inputs: seq<Input>)
    requires Inv(s)
    ensures Inv(Run(s, inputs).state)
    decreases |inputs|
  {
    if |inputs| > 0 {
      var t := Step(s, inputs[0].event, inputs[0].env);
      StepPreservesInv(s, inputs[0].event, inputs[0].env);
      RunPreservesInv(t.state, inputs[1..]);
      assert Run(s, inputs).state == Run(t.state, inputs[1..]).state;
    }
  }

  lemma StepPreservesInv(s: State, e: Event, env: Env)
    requires Inv(s)
    ensures Inv(Step(s, e, env).state)
  {
  }

  /** Over any run, every commit directly follows a capture stop and is directly
      followed by a response request, and every response request directly follows a commit. */
  lemma {:induction false} RunCommitOrder(s: State, inputs: seq<Input>)
    ensures CommitsAnswered(Run(s, inputs).out)
    ensures CommitsAfterStop(Run(s, inputs).out)
    ensures ResponsesFollowCommits(Run(s, inputs).out)
    decreases |inputs|
  {
    if |inputs| > 0 {
      var t := Step(s, inputs[0].event, inputs[0].env);
      var rest := Run(t.state, inputs[1..]);
      RunCommitOrder(t.state, inputs[1..]);
      CommitsAnsweredConcat(t.out, rest.out);
      CommitsAfterStopConcat(t.out, rest.out);
      ResponsesFollowCommitsConcat(t.out, rest.out);
    }
  }

  lemma CommitsAfterStopConcat(a: seq<Effect>, b: seq<Effect>)
    requires CommitsAfterStop(a) && CommitsAfterStop(b)
    ensures CommitsAfterStop(a + b)
  {
    forall i | 0 <= i < |a + b| && (a + b)[i] == Send(Commit)
      ensures 0 < i && (a + b)[i - 1] == StopCapture
    {
      if i < |a| {
        assert a[i] == Send(Commit);
      } else {
        assert b[i - |a|] == Send(Commit);
      }
    }
  }

  /** Stopping twice is stopping once: the second stop sends nothing. */
  lemma StopIdempotent(s: State, env1: Env, env2: Env)
    ensures var t := StopRecording(s, env1).state;
      StopRecording(t, env2) == Unchanged(t)
  {
  }

  /** Only the first session.updated starts capture. */
  lemma SessionUpdatedOnce(s: State, env: Env)
    ensures s.sessionConfigured ==> Step(s, SessionUpdated, env) == Unchanged(s)
    ensures !s.sessionConfigured ==>
              Step(s, SessionUpdated, env) == StartRecording(s.(sessionConfigured := true), env)
    ensures !s.sessionConfigured ==> Step(s, SessionUpdated, env).state.sessionConfigured
    ensures !s.sessionConfigured && env.captureOk && !s.isRecording ==>
              Step(s, SessionUpdated, env).out == [StartCapture]
  {
  }

  /** A capture error while recording goes through stopRecording, so it commits the
      (possibly partial) audio and requests a response whenever the socket is open. */
  lemma CaptureErrorCommits(s: State, env: Env)
    requires Inv(s) && s.isRecording && env.wsOpen
    ensures Step(s, CaptureError, env).out == [StopCapture, Send(Commit), Send(ResponseCreate)]
    ensures !Step(s, CaptureError, env).state.isRecording
  {
  }

  /** Speech-stop followed by its timer resumes capture exactly when the session is configured. */
  lemma SpeechStopThenRestart(s: State, env: Env)
    requires Inv(s) && env.captureOk
    ensures var t1 := Step(s, SpeechStopped, env);
      var t2 := Step(t1.state, RestartTimer, env);
      && (s.sessionConfigured ==> t2.state.isRecording && t1.out + t2.out == StopRecording(s, env).out + [ArmRestart, StartCapture])
      && (!s.sessionConfigured ==> !t2.state.isRecording && t1.out + t2.out == StopRecording(s, env).out + [ArmRestart])
  {
  }
}

=== FILE: turn_coordinator.dfy ===
/**
  The flag-based turn-taking state machine shared by `pc/src/index.js` and
  `nano/src/index.js`: the websocket `message` dispatch, the capture-frame and
  capture-error handlers, the playback-finished handler, the restart timer and
  the websocket `error`/`close` resets.

  Node runs one handler at a time, so each handler is one pure `Step`. What a
  handler learns synchronously from the outside (is the socket open, did the
  device open) is an `Env` input; what arrives later (a frame, a finished
  playback, a timer) is an `Event`.
 */
module TurnCoordinator {
  import opened Common
  import opened Effects
  import Base64

  /** The two copies of the dispatch differ only in their capture and playback devices. */
  datatype Variant =
    | Pc    // node-record-lpcm16 capture, `speaker` playback
    | Nano  // FIFO capture at /tmp/audio_pipe, `aplay` playback

  datatype State = State(
    sessionConfigured: bool,
    isRecording: bool,
    hasStream: bool,          // recordingStream !== null
    inProgress: bool,         // isResponseInProgress
    playing: bool,            // isCurrentlyPlaying
    buffer: seq<byte>,        // responseBuffer
    pendingFinishes: nat,     // playbacks started whose finish/close signal is still to come
    pendingRestarts: nat)     // 1000 ms restart timers set and not yet fired

  const Init := State(false, false, false, false, false, [], 0, 0)

  /** What a handler observes synchronously. */
  datatype Env = Env(
    wsOpen: bool,     // ws.readyState === WebSocket.OPEN
    captureOk: bool,  // Pc: recorder.record did not throw; Nano: the FIFO exists
    sinkOk: bool)     // Pc: the Speaker was created; Nano: the temp file was written

  datatype Event =
    // inbound websocket messages, by `type`
    | SessionUpdated
    | SpeechStarted
    | SpeechStopped
    | ResponseCreated
    | AudioDelta(delta: Option<string>)
    | AudioDone
    | ResponseDone
    | TranscriptDelta(text: Option<string>)
    | ItemCreated
    | ServerError(message: string)
    | Unhandled(kind: string)
    // device and timer signals
    | Frame(data: seq<byte>)  // `data` from the capture stream
    | CaptureError            // `error` from the capture stream
    | PlaybackFinished        // speaker `finish` (Pc) / aplay `close` (Nano)
    | RestartTimer            // a 1000 ms restart timer fires
    // websocket lifecycle
    | SocketError
    | SocketClose

  datatype Input = Input(event: Event, env: Env)

  type Transition = Effects.Transition<State>

  function Unchanged(s: State): Transition {
    Transition(s, [])
  }

  /** startRecording (pc/src/index.js:92-120, nano/src/index.js:63-101). */
  function StartRecording(v: Variant, s: State, env: Env): (r: Transition)
    ensures s.isRecording || s.inProgress || s.playing ==> r == Unchanged(s)
    ensures r.out == [StartCapture] <==>
              !s.isRecording && !s.inProgress && !s.playing && env.captureOk
    ensures r.out != [StartCapture] ==> r.out == []
    ensures r.out == [StartCapture] ==> r.state == s.(isRecording := true, hasStream := true)
    ensures v.Pc? && !env.captureOk ==> r.state == s
    ensures v.Nano? && !env.captureOk && !s.isRecording && !s.inProgress && !s.playing ==>
              r.state == s.(isRecording := true)
  {
    if s.isRecording || s.inProgress || s.playing then Unchanged(s)
    else if env.captureOk then
      Transition(s.(isRecording := true, hasStream := true), [StartCapture])
    else match v
      // recorder.record threw: the catch clears isRecording again
      case Pc => Unchanged(s)
      // the FIFO is missing: the early return leaves isRecording set with no stream
      case Nano => Unchanged(s.(isRecording := true))
  }

  /** stopRecording (pc/src/index.js:122-134, nano/src/index.js:103-115). */
  function StopRecording(s: State): (r: Transition)
    ensures !s.isRecording || !s.hasStream ==> r == Unchanged(s)
    ensures s.isRecording && s.hasStream ==>
              r.state == s.(isRecording := false, hasStream := false) && r.out == [StopCapture]
    ensures !(r.state.isRecording && r.state.hasStream)
  {
    if !s.isRecording || !s.hasStream then Unchanged(s)
    else Transition(s.(isRecording := false, hasStream := false), [StopCapture])
  }

  /** The capture stream's `data` handler (pc/src/index.js:103-110, nano/src/index.js:81-88). */
  function HandleFrame(s: State, data: seq<byte>, env: Env): (r: Transition)
    ensures r.state == s
    ensures |r.out| <= 1
    ensures |r.out| == 1 <==> env.wsOpen && !s.inProgress && !s.playing
    ensures |r.out| == 1 ==>
              r.out[0].Send? && r.out[0].msg.Append? && Base64.Decode(r.out[0].msg.audio) == data
    ensures |r.out| == 1 ==> r.out[0] == Send(Append(Base64.Encode(data)))
  {
    if env.wsOpen && !s.inProgress && !s.playing then
      Base64.DecodeEncode(data);
      Transition(s, [Send(Append(Base64.Encode(data)))])
    else Unchanged(s)
  }

  /** The `input_audio_buffer.speech_stopped` case (pc/src/index.js:189-203, nano/src/index.js:170-184). */
  function OnSpeechStopped(s: State, env: Env): (r: Transition)
    ensures s.inProgress || s.playing ==> r == Unchanged(s)
    ensures !s.inProgress && !s.playing ==>
              && r.state == StopRecording(s).state
              && r.out == StopRecording(s).out
                          + (if env.wsOpen then [Send(Commit), Send(ResponseCreate)] else [])
    ensures CommitsAnswered(r.out) && ResponsesFollowCommits(r.out)
    ensures forall i, j ::
              0 <= i < |r.out| && 0 <= j < |r.out| && r.out[i] == StopCapture && r.out[j] == Send(Commit)
              ==> i < j
  {
    if s.inProgress || s.playing then Unchanged(s)
    else
      var t := StopRecording(s);
      var sent := if env.wsOpen then [Send(Commit), Send(ResponseCreate)] else [];
      Transition(t.state, t.out + sent)
  }

  /** The `response.created` case (pc/src/index.js:205-209, nano/src/index.js:186-190). */
  function OnResponseCreated(s: State): (r: Transition)
    ensures r.state.inProgress && r.state.buffer == []
    ensures !s.isRecording || !s.hasStream ==> r.out == []
    ensures s.isRecording && s.hasStream ==>
              r.out == [StopCapture] && !r.state.isRecording && !r.state.hasStream
    ensures r.state.playing == s.playing && r.state.sessionConfigured == s.sessionConfigured
    ensures r.state.pendingFinishes == s.pendingFinishes
    ensures r.state.pendingRestarts == s.pendingRestarts
    ensures r.out == StopRecording(s).out
    ensures r.state.isRecording == StopRecording(s).state.isRecording
    ensures r.state.hasStream == StopRecording(s).state.hasStream
  {
    var t := StopRecording(s.(inProgress := true));
    Transition(t.state.(buffer := []), t.out)
  }

  /** The `response.audio.delta` case (pc/src/index.js:211-216, nano/src/index.js:192-197). */
  function OnAudioDelta(s: State, delta: Option<string>): (r: Transition)
    ensures r.out == []
    ensures s.inProgress && delta.Some? ==>
              r.state == s.(buffer := s.buffer + Base64.Decode(delta.value))
    ensures !s.inProgress || delta.None? ==> r.state == s
  {
    // an empty string is falsy: it is skipped, which decoding "" would not change
    if delta.Some? && |delta.value| > 0 && s.inProgress then
      Transition(s.(buffer := s.buffer + Base64.Decode(delta.value)), [])
    else
      assert delta.Some? && delta.value == "" ==> Base64.Decode(delta.value) == [];
      Unchanged(s)
  }

  /** playCompleteResponse (pc/src/index.js:55-90, nano/src/index.js:20-61), up to handing
      the buffer to the sink; the finish signal is `FinishPlayback`. */
  function PlayCompleteResponse(v: Variant, s: State, env: Env): (r: Transition)
    ensures |s.buffer| == 0 || s.playing ==> r == Unchanged(s)
    ensures |s.buffer| > 0 && !s.playing && env.sinkOk ==>
              r.out == [Play(s.buffer)] && r.state.playing
              && r.state.pendingFinishes == s.pendingFinishes + 1
    ensures r.out == [] || r.out == [Play(s.buffer)]
    ensures r.state.buffer == s.buffer && r.state.inProgress == s.inProgress
    ensures r.state.isRecording == s.isRecording && r.state.hasStream == s.hasStream
    ensures v.Pc? && !env.sinkOk ==> r == Unchanged(s)
    ensures r.state.sessionConfigured == s.sessionConfigured && r.state.pendingRestarts == s.pendingRestarts
    ensures v.Nano? && !env.sinkOk && |s.buffer| > 0 && !s.playing ==>
              r.out == [] && r.state == s.(playing := true)
  {
    if |s.buffer| == 0 || s.playing then Unchanged(s)
    else if env.sinkOk then
      Transition(s.(playing := true, pendingFinishes := s.pendingFinishes + 1), [Play(s.buffer)])
    else match v
      // the Speaker constructor threw: the catch clears isCurrentlyPlaying
      case Pc => Unchanged(s)
      // writeFileSync threw out of the handler: isCurrentlyPlaying stays set, no aplay runs
      case Nano => Unchanged(s.(playing := true))
  }

  /** The speaker `finish` handler (pc/src/index.js:64-76) and the aplay `close`
      handler (nano/src/index.js:46-60), whatever the exit code. */
  function FinishPlayback(s: State): (r: Transition)
    requires s.pendingFinishes > 0
    ensures r.state.buffer == [] && !r.state.inProgress && !r.state.playing
    ensures r.state.pendingFinishes == s.pendingFinishes - 1
    ensures r.state.pendingRestarts == s.pendingRestarts + 1 && r.out == [ArmRestart]
    ensures r.state.isRecording == s.isRecording && r.state.hasStream == s.hasStream
    ensures r.state.sessionConfigured == s.sessionConfigured
  {
    Transition(s.(buffer := [], inProgress := false, playing := false,
                  pendingFinishes := s.pendingFinishes - 1,
                  pendingRestarts := s.pendingRestarts + 1),
               [ArmRestart])
  }

  /** The restart timer body (pc/src/index.js:71-75, nano/src/index.js:55-59). */
  function RestartFires(v: Variant, s: State, env: Env): (r: Transition)
    requires s.pendingRestarts > 0
    ensures r.state.pendingRestarts == s.pendingRestarts - 1
    ensures !s.sessionConfigured ==> r == Unchanged(s.(pendingRestarts := s.pendingRestarts - 1))
    ensures s.sessionConfigured ==> r == StartRecording(v, s.(pendingRestarts := s.pendingRestarts - 1), env)
    ensures StartCapture in r.out <==>
              s.sessionConfigured && !s.isRecording && !s.inProgress && !s.playing && env.captureOk
  {
    var s' := s.(pendingRestarts := s.pendingRestarts - 1);
    if s'.sessionConfigured then StartRecording(v, s', env) else Unchanged(s')
  }

  /** The websocket `error` and `close` handlers (pc/src/index.js:254-268,
      nano/src/index.js:235-249). Pending timers and playbacks are not cancelled. */
  function Reset(s: State): (r: Transition)
    ensures !r.state.inProgress && !r.state.playing && r.state.buffer == []
    ensures r.out == StopRecording(s).out
    ensures s.isRecording && s.hasStream ==> r.out == [StopCapture] && !r.state.isRecording && !r.state.hasStream
    ensures !(s.isRecording && s.hasStream) ==>
              r.out == [] && r.state.isRecording == s.isRecording && r.state.hasStream == s.hasStream
    ensures r.state.sessionConfigured == s.sessionConfigured
    ensures r.state.pendingFinishes == s.pendingFinishes
    ensures r.state.pendingRestarts == s.pendingRestarts
  {
    var t := StopRecording(s);
    Transition(t.state.(inProgress := false, playing := false, buffer := []), t.out)
  }

  /** One handler run: the message switch (pc/src/index.js:169-252,
      nano/src/index.js:150-233) and the device, timer and socket handlers. */
  function Step(v: Variant, s: State, e: Event, env: Env): Transition
  {
    match e
    case SessionUpdated =>
      if s.sessionConfigured then Unchanged(s)
      else StartRecording(v, s.(sessionConfigured := true), env)
    case SpeechStopped => OnSpeechStopped(s, env)
    case ResponseCreated => OnResponseCreated(s)
    case AudioDelta(delta) => OnAudioDelta(s, delta)
    case AudioDone => if !s.playing then PlayCompleteResponse(v, s, env) else Unchanged(s)
    // logged only: speech_started, response.done, transcripts, items, error messages
    // whether or not they mention "buffer too small", and unlisted types
    case SpeechStarted => Unchanged(s)
    case ResponseDone => Unchanged(s)
    case TranscriptDelta(_) => Unchanged(s)
    case ItemCreated => Unchanged(s)
    case ServerError(_) => Unchanged(s)
    case Unhandled(_) => Unchanged(s)
    case Frame(data) => HandleFrame(s, data, env)
    case CaptureError => StopRecording(s)
    case PlaybackFinished =>
      if s.pendingFinishes == 0 then Unchanged(s) else FinishPlayback(s)
    case RestartTimer =>
      if s.pendingRestarts == 0 then Unchanged(s) else RestartFires(v, s, env)
    case SocketError => Reset(s)
    case SocketClose => Reset(s)
  }

  /** Handlers run one after another; the log is every effect in order. */
  function Run(v: Variant, s: State, inputs: seq<Input>): (r: Transition)
    decreases |inputs|
  {
    if |inputs| == 0 then Unchanged(s)
    else
      var t := Step(v, s, inputs[0].event, inputs[0].env);
      var rest := Run(v, t.state, inputs[1..]);
      Transition(rest.state, t.out + rest.out)
  }
}

=== FILE: turn_coordinator_props.dfy ===
/**
  Properties of the pc/nano turn-taking state machine over arbitrary
  sequences of handler runs.
 */
module TurnCoordinatorProps {
  import opened Common
  import opened Effects
  import Base64
  import opened TurnCoordinator

  // ---------------------------------------------------------------- reachable-state invariant

  /** What holds of every state the handlers can reach from the initial one. */
  predicate Inv(v: Variant, s: State) {
    // audio is only buffered for a response in progress
    && (|s.buffer| > 0 ==> s.inProgress)
    // playback only happens inside a response
    && (s.playing ==> s.inProgress)
    // a capture stream is never open during a response or playback
    && (s.hasStream ==> s.isRecording && !s.inProgress && !s.playing)
    // pc clears isRecording whenever it has no stream; nano may not (the missing FIFO)
    && (v.Pc? ==> (s.isRecording ==> s.hasStream))
  }

  lemma InitSatisfiesInv(v: Variant)
    ensures Inv(v, Init)
  {
  }

  lemma StepPreservesInv(v: Variant, s: State, e: Event, env: Env)
    requires Inv(v, s)
    ensures Inv(v, Step(v, s, e, env).state)
  {
  }

  lemma {:induction false} RunPreservesInv(v: Variant, s: State, inputs: seq<Input>)
    requires Inv(v, s)
    ensures Inv(v, Run(v, s, inputs).state)
    decreases |inputs|
  {
    if |inputs| > 0 {
      StepPreservesInv(v, s, inputs[0].event, inputs[0].env);
      RunPreservesInv(v, Step(v, s, inputs[0].event, inputs[0].env).state, inputs[1..]);
    }
  }

  /** In every reachable state: playing implies a response in progress, which in pc
      implies capture is off; buffered audio implies a response in progress; an open
      capture stream implies neither a response nor playback. */
  lemma ReachableStates(v: Variant, inputs: seq<Input>)
    ensures var s := Run(v, Init, inputs).state;
      && (s.playing ==> s.inProgress)
      && (v.Pc? && s.inProgress ==> !s.isRecording)
      && (|s.buffer| > 0 ==> s.inProgress)
      && (s.hasStream ==> !s.inProgress && !s.playing)
  {
    RunPreservesInv(v, Init, inputs);
  }

  // ---------------------------------------------------------------- outbound ordering

  /** A handler sends a commit only with response.create directly after it, and
      response.create only directly after a commit. */
  lemma StepCommitsAnswered(v: Variant, s: State, e: Event, env: Env)
    ensures CommitsAnswered(Step(v, s, e, env).out)
    ensures ResponsesFollowCommits(Step(v, s, e, env).out)
  {
    if e.SpeechStopped? {
      assert Step(v, s, e, env) == OnSpeechStopped(s, env);
    } else {
      NoTurnMessagesElsewhere(v, s, e, env);
    }
  }

  /** Only speech-stop sends a commit or a response request. */
  lemma NoTurnMessagesElsewhere(v: Variant, s: State, e: Event, env: Env)
    requires !e.SpeechStopped?
    ensures forall i :: 0 <= i < |Step(v, s, e, env).out| ==>
              Step(v, s, e, env).out[i] != Send(Commit) && Step(v, s, e, env).out[i] != Send(ResponseCreate)
  {
  }

  /** The microphone is forwarded only by a frame, only on an open socket, and never
      while a response is in progress or audio is playing. */
  lemma StepMicGated(v: Variant, s: State, e: Event, env: Env)
    ensures forall i :: 0 <= i < |Step(v, s, e, env).out| && Step(v, s, e, env).out[i].Send?
              && Step(v, s, e, env).out[i].msg.Append?
              ==> e.Frame? && env.wsOpen && !s.inProgress && !s.playing
  {
  }

  /** In the whole outbound log, commits and response requests come in adjacent pairs:
      every commit is immediately followed by response.create, and every response.create
      immediately follows a commit. */
  lemma {:induction false} RunCommitsAnswered(v: Variant, s: State, inputs: seq<Input>)
    ensures CommitsAnswered(Run(v, s, inputs).out)
    ensures ResponsesFollowCommits(Run(v, s, inputs).out)
    decreases |inputs|
  {
    if |inputs| > 0 {
      var t := Step(v, s, inputs[0].event, inputs[0].env);
      var rest := Run(v, t.state, inputs[1..]);
      StepCommitsAnswered(v, s, inputs[0].event, inputs[0].env);
      RunCommitsAnswered(v, t.state, inputs[1..]);
      CommitsAnsweredConcat(t.out, rest.out);
      ResponsesFollowCommitsConcat(t.out, rest.out);
    }
  }

  // ---------------------------------------------------------------- response buffer

  /** The decoded payloads of the present audio deltas among the inputs, in order. */
  function DeltaBytes(inputs: seq<Input>): seq<byte>
    decreases |inputs|
  {
    if |inputs| == 0 then []
    else
      var e := inputs[0].event;
      (if e.AudioDelta? && e.delta.Some? then Base64.Decode(e.delta.value) else [])
      + DeltaBytes(inputs[1..])
  }

  /** Events that neither start a new response nor end the current one. */
  predicate KeepsResponse(e: Event) {
    !e.ResponseCreated? && !e.PlaybackFinished? && !e.SocketError? && !e.SocketClose?
  }

  /** Every event of the sequence keeps the current response. */
  predicate AllKeepResponse(inputs: seq<Input>)
    decreases |inputs|
  {
    |inputs| == 0 || (KeepsResponse(inputs[0].event) && AllKeepResponse(inputs[1..]))
  }

  lemma StepKeepsResponse(v: Variant, s: State, e: Event, env: Env)
    requires s.inProgress && KeepsResponse(e)
    ensures Step(v, s, e, env).state.inProgress
    ensures Step(v, s, e, env).state.buffer ==
              s.buffer + (if e.AudioDelta? && e.delta.Some? then Base64.Decode(e.delta.value) else [])
  {
  }

  /** While a response is in progress, the buffer grows by exactly the decoded deltas,
      in arrival order, whatever else is interleaved. */
  lemma {:induction false} DeltasAccumulate(v: Variant, s: State, inputs: seq<Input>)
    requires s.inProgress
    requires AllKeepResponse(inputs)
    ensures Run(v, s, inputs).state.inProgress
    ensures Run(v, s, inputs).state.buffer == s.buffer + DeltaBytes(inputs)
    decreases |inputs|
  {
    if |inputs| > 0 {
      var e := inputs[0].event;
      var t := Step(v, s, e, inputs[0].env);
      var rest := inputs[1..];
      StepKeepsResponse(v, s, e, inputs[0].env);
      DeltasAccumulate(v, t.state, rest);
      var chunk := if e.AudioDelta? && e.delta.Some? then Base64.Decode(e.delta.value) else [];
      RunSplitsState(v, s, inputs);
      assert DeltaBytes(inputs) == chunk + DeltaBytes(rest);
      assert (s.buffer + chunk) + DeltaBytes(rest) == s.buffer + (chunk + DeltaBytes(rest));
    }
  }

  /** The state after a run is the state after running the rest from the first step's state. */
  lemma RunSplitsState(v: Variant, s: State, inputs: seq<Input>)
    requires |inputs| > 0
    ensures Run(v, s, inputs).state
              == Run(v, Step(v, s, inputs[0].event, inputs[0].env).state, inputs[1..]).state
  {
  }

  /** After response.created, the buffer is the in-order concatenation of the decoded deltas. */
  lemma ResponseCollectsDeltas(v: Variant, s: State, env: Env, inputs: seq<Input>)
    requires AllKeepResponse(inputs)
    ensures Run(v, s, [Input(ResponseCreated, env)] + inputs).state.buffer == DeltaBytes(inputs)
  {
    var all := [Input(ResponseCreated, env)] + inputs;
    assert all[1..] == inputs;
    var t := Step(v, s, ResponseCreated, env);
    DeltasAccumulate(v, t.state, inputs);
  }

  /** Events that keep the current response and do not ask for playback. */
  predicate Collects(e: Event) {
    KeepsResponse(e) && !e.AudioDone?
  }

  predicate AllCollect(inputs: seq<Input>)
    decreases |inputs|
  {
    |inputs| == 0 || (Collects(inputs[0].event) && AllCollect(inputs[1..]))
  }

  lemma StepCollects(v: Variant, s: State, e: Event, env: Env)
    requires s.inProgress && !s.playing && Collects(e)
    ensures var r := Step(v, s, e, env);
      && r.state.inProgress && !r.state.playing
      && r.state.pendingFinishes == s.pendingFinishes
      && r.state.buffer == s.buffer + (if e.AudioDelta? && e.delta.Some? then Base64.Decode(e.delta.value) else [])
      && Silent(r.out)
  {
  }

  /** Before audio.done, a response only collects: nothing is played. */
  lemma {:induction false} CollectSilently(v: Variant, s: State, inputs: seq<Input>)
    requires s.inProgress && !s.playing && AllCollect(inputs)
    ensures var r := Run(v, s, inputs);
      && r.state.inProgress && !r.state.playing
      && r.state.pendingFinishes == s.pendingFinishes
      && r.state.buffer == s.buffer + DeltaBytes(inputs)
      && Silent(r.out)
    decreases |inputs|
  {
    if |inputs| > 0 {
      var e := inputs[0].event;
      var t := Step(v, s, e, inputs[0].env);
      var rest := Run(v, t.state, inputs[1..]);
      StepCollects(v, s, e, inputs[0].env);
      CollectSilently(v, t.state, inputs[1..]);
      var chunk := if e.AudioDelta? && e.delta.Some? then Base64.Decode(e.delta.value) else [];
      RunUnfold(v, s, inputs);
      assert DeltaBytes(inputs) == chunk + DeltaBytes(inputs[1..]);
      SeqAssoc(s.buffer, chunk, DeltaBytes(inputs[1..]));
      SilentConcat(t.out, rest.out);
    }
  }

  /** Running two input sequences one after the other. */
  lemma {:induction false} RunAppend(v: Variant, s: State, a: seq<Input>, b: seq<Input>)
    ensures Run(v, s, a + b).state == Run(v, Run(v, s, a).state, b).state
    ensures Run(v, s, a + b).out == Run(v, s, a).out + Run(v, Run(v, s, a).state, b).out
    decreases |a|
  {
    if |a| == 0 {
      assert a + b == b;
    } else {
      var t := Step(v, s, a[0].event, a[0].env);
      assert (a + b)[0] == a[0] && (a + b)[1..] == a[1..] + b;
      RunAppend(v, t.state, a[1..], b);
      RunUnfold(v, s, a);
      RunUnfold(v, s, a + b);
      var mid := Run(v, t.state, a[1..]);
      SeqAssoc(t.out, mid.out, Run(v, mid.state, b).out);
    }
  }

  /** A run is its first handler followed by the run of the rest. */
  lemma RunUnfold(v: Variant, s: State, inputs: seq<Input>)
    requires |inputs| > 0
    ensures var t := Step(v, s, inputs[0].event, inputs[0].env);
      Run(v, s, inputs) == Transition(Run(v, t.state, inputs[1..]).state, t.out + Run(v, t.state, inputs[1..]).out)
  {
  }

  /** From response.created up to audio.done: the deltas are collected and nothing plays. */
  lemma ResponseCollectPhase(v: Variant, s: State, env: Env, inputs: seq<Input>)
    requires !s.playing && AllCollect(inputs)
    ensures var r := Run(v, s, [Input(ResponseCreated, env)] + inputs);
      && r.state.inProgress && !r.state.playing
      && r.state.buffer == DeltaBytes(inputs)
      && r.state.pendingFinishes == s.pendingFinishes
      && Silent(r.out)
  {
    var head := [Input(ResponseCreated, env)] + inputs;
    var t0 := Step(v, s, ResponseCreated, env);
    var mid := Run(v, t0.state, inputs);
    assert head[0].event == ResponseCreated && head[0].env == env && head[1..] == inputs;
    RunUnfold(v, s, head);
    CollectSilently(v, t0.state, inputs);
    SilentConcat(t0.out, mid.out);
  }

  /** A whole response, from response.created through its deltas to audio.done, hands the
      sink the in-order concatenation of the decoded deltas, once, as the last effect. */
  lemma ResponsePlayedOnce(v: Variant, s: State, env: Env, inputs: seq<Input>, doneEnv: Env)
    requires !s.playing && doneEnv.sinkOk && AllCollect(inputs) && |DeltaBytes(inputs)| > 0
    ensures var r := Run(v, s, [Input(ResponseCreated, env)] + inputs + [Input(AudioDone, doneEnv)]);
      && |r.out| > 0
      && r.out[|r.out| - 1] == Play(DeltaBytes(inputs))
      && Silent(r.out[..|r.out| - 1])
      && Played(r.out) == DeltaBytes(inputs)
      && r.state.playing && r.state.pendingFinishes == s.pendingFinishes + 1
  {
    var head := [Input(ResponseCreated, env)] + inputs;
    var last := [Input(AudioDone, doneEnv)];
    var pre := Run(v, s, head);
    ResponseCollectPhase(v, s, env, inputs);
    var done := Step(v, pre.state, AudioDone, doneEnv);
    assert done.out == [Play(DeltaBytes(inputs))]
        && done.state.playing && done.state.pendingFinishes == s.pendingFinishes + 1 by {
      assert done == PlayCompleteResponse(v, pre.state, doneEnv);
    }
    assert Run(v, pre.state, last) == Transition(done.state, done.out) by {
      RunUnfold(v, pre.state, last);
      assert last[1..] == [];
    }
    RunAppend(v, s, head, last);
    var out := Run(v, s, head + last).out;
    assert out == pre.out + done.out;
    assert out[..|out| - 1] == pre.out;
    SilentPlaysNothing(pre.out);
    PlayedConcat(pre.out, done.out);
    assert Played(done.out) == DeltaBytes(inputs) + Played([]);
  }

  /** Events that leave a started playback running. */
  predicate AllBeforeFinish(inputs: seq<Input>)
    decreases |inputs|
  {
    |inputs| == 0
    || (!inputs[0].event.PlaybackFinished? && !inputs[0].event.SocketError?
        && !inputs[0].event.SocketClose? && AllBeforeFinish(inputs[1..]))
  }

  lemma StepWhilePlaying(v: Variant, s: State, e: Event, env: Env)
    requires s.playing && !e.PlaybackFinished? && !e.SocketError? && !e.SocketClose?
    ensures Step(v, s, e, env).state.playing && Silent(Step(v, s, e, env).out)
  {
  }

  /** Until the finish signal (or the socket going down), nothing more is played: a repeated
      audio.done does not replay the response. */
  lemma {:induction false} NoReplayBeforeFinish(v: Variant, s: State, inputs: seq<Input>)
    requires s.playing && AllBeforeFinish(inputs)
    ensures Run(v, s, inputs).state.playing && Silent(Run(v, s, inputs).out)
    decreases |inputs|
  {
    if |inputs| > 0 {
      var t := Step(v, s, inputs[0].event, inputs[0].env);
      var rest := Run(v, t.state, inputs[1..]);
      StepWhilePlaying(v, s, inputs[0].event, inputs[0].env);
      NoReplayBeforeFinish(v, t.state, inputs[1..]);
      RunUnfold(v, s, inputs);
      SilentConcat(t.out, rest.out);
    }
  }

  /** A delta that arrives while the response is already playing is buffered, and the
      finish signal then discards it unplayed. */
  lemma LateDeltaDropped(v: Variant, s: State, d: string, env: Env)
    requires s.inProgress && s.playing && s.pendingFinishes > 0
    ensures var t1 := Step(v, s, AudioDelta(Some(d)), env);
      var t2 := Step(v, t1.state, PlaybackFinished, env);
      && t1.state.buffer == s.buffer + Base64.Decode(d)
      && t2.state.buffer == []
      && t1.out + t2.out == [ArmRestart]
  {
  }

  // ---------------------------------------------------------------- single handlers

  /** Stopping capture twice is the same as stopping it once. */
  lemma StopIdempotent(s: State)
    ensures StopRecording(StopRecording(s).state) == Unchanged(StopRecording(s).state)
  {
  }

  /** Only the first session.updated starts capture; later ones change nothing. */
  lemma SessionUpdatedOnce(v: Variant, s: State, env: Env)
    ensures s.sessionConfigured ==> Step(v, s, SessionUpdated, env) == Unchanged(s)
    ensures !s.sessionConfigured ==> Step(v, s, SessionUpdated, env).state.sessionConfigured
    ensures !s.sessionConfigured ==>
              Step(v, s, SessionUpdated, env) == StartRecording(v, s.(sessionConfigured := true), env)
    ensures !s.sessionConfigured && !s.isRecording && !s.inProgress && !s.playing && env.captureOk ==>
              && Step(v, s, SessionUpdated, env).out == [StartCapture]
              && Step(v, s, SessionUpdated, env).state.isRecording
              && Step(v, s, SessionUpdated, env).state.hasStream
  {
  }

  /** A capture error only stops capture: unlike `index.js`, nothing is committed or sent. */
  lemma CaptureErrorSendsNothing(v: Variant, s: State, env: Env)
    ensures var r := Step(v, s, CaptureError, env);
      && r == StopRecording(s)
      && (forall i :: 0 <= i < |r.out| ==> !r.out[i].Send?)
  {
  }

  /** audio.done while already playing is ignored. */
  lemma AudioDoneWhilePlayingIgnored(v: Variant, s: State, env: Env)
    requires s.playing
    ensures Step(v, s, AudioDone, env) == Unchanged(s)
  {
  }

  /** A finish or restart signal acts only when a playback or timer is outstanding. */
  lemma StraySignalsIgnored(v: Variant, s: State, env: Env)
    ensures s.pendingFinishes == 0 ==> Step(v, s, PlaybackFinished, env) == Unchanged(s)
    ensures s.pendingRestarts == 0 ==> Step(v, s, RestartTimer, env) == Unchanged(s)
    ensures s.pendingFinishes > 0 ==> Step(v, s, PlaybackFinished, env).out == [ArmRestart]
  {
  }

  /** Logged-only messages, including every `error` message, change no state and send nothing. */
  lemma ObserverEventsChangeNothing(v: Variant, s: State, e: Event, env: Env)
    requires e.SpeechStarted? || e.ResponseDone? || e.TranscriptDelta? || e.ItemCreated?
          || e.ServerError? || e.Unhandled?
    ensures Step(v, s, e, env) == Unchanged(s)
  {
  }

  /** Closing (or erroring) the socket in pc leaves capture off, no response and no buffer. */
  lemma PcSocketDownResets(s: State, e: Event, env: Env)
    requires Inv(Pc, s) && (e.SocketClose? || e.SocketError?)
    ensures var r := Step(Pc, s, e, env).state;
      && !r.isRecording && !r.hasStream && !r.inProgress && !r.playing && r.buffer == []
      && r.sessionConfigured == s.sessionConfigured
  {
  }

  // ---------------------------------------------------------------- timers survive close

  /** A restart timer armed by a playback that ends after the socket closed still starts
      capture: close clears neither the pending playback nor `sessionConfigured`. */
  lemma PcRestartAfterClose(s: State, env: Env)
    requires Inv(Pc, s) && s.sessionConfigured && s.pendingFinishes > 0 && env.captureOk
    ensures var t1 := Step(Pc, s, SocketClose, env);
      var t2 := Step(Pc, t1.state, PlaybackFinished, env);
      var t3 := Step(Pc, t2.state, RestartTimer, env);
      && !t1.state.isRecording && t1.state.pendingFinishes > 0
      && t2.out == [ArmRestart]
      && t3.out == [StartCapture] && t3.state.isRecording && t3.state.hasStream
  {
  }

  /** In pc, with a playback and a restart both outstanding, a close lets the restart reopen the
      microphone while the old playback has still to finish: capture and playback overlap. */
  lemma PcOverlapAfterClose(s: State, env: Env)
    requires Inv(Pc, s) && s.sessionConfigured && s.pendingFinishes > 0 && s.pendingRestarts > 0
    requires env.captureOk
    ensures var t1 := Step(Pc, s, SocketClose, env);
      var t2 := Step(Pc, t1.state, RestartTimer, env);
      && t2.out == [StartCapture]
      && t2.state.isRecording && t2.state.hasStream
      && t2.state.pendingFinishes == s.pendingFinishes
  {
  }

  // ---------------------------------------------------------------- nano with no FIFO

  lemma NanoStepWedged(s: State, e: Event, env: Env)
    requires s.isRecording && !s.hasStream
    ensures Step(Nano, s, e, env).state.isRecording && !Step(Nano, s, e, env).state.hasStream
    ensures StartCapture !in Step(Nano, s, e, env).out && StopCapture !in Step(Nano, s, e, env).out
  {
  }

  /** Once nano has isRecording set with no stream (the FIFO was missing), no event
      ever opens or stops capture again, and the flag stays set. */
  lemma {:induction false} NanoCaptureWedged(s: State, inputs: seq<Input>)
    requires s.isRecording && !s.hasStream
    ensures Run(Nano, s, inputs).state.isRecording && !Run(Nano, s, inputs).state.hasStream
    ensures StartCapture !in Run(Nano, s, inputs).out && StopCapture !in Run(Nano, s, inputs).out
    decreases |inputs|
  {
    if |inputs| > 0 {
      var t := Step(Nano, s, inputs[0].event, inputs[0].env);
      NanoStepWedged(s, inputs[0].event, inputs[0].env);
      NanoCaptureWedged(t.state, inputs[1..]);
    }
  }

  /** Every event of the sequence leaves the socket up. */
  predicate AllSocketUp(inputs: seq<Input>)
    decreases |inputs|
  {
    |inputs| == 0
    || (!inputs[0].event.SocketError? && !inputs[0].event.SocketClose? && AllSocketUp(inputs[1..]))
  }

  lemma NanoStepStuckPlaying(s: State, e: Event, env: Env)
    requires s.playing && s.pendingFinishes == 0 && !e.SocketError? && !e.SocketClose?
    ensures Step(Nano, s, e, env).state.playing && Step(Nano, s, e, env).state.pendingFinishes == 0
    ensures StartCapture !in Step(Nano, s, e, env).out
  {
  }

  /** When the temp-file write fails, nano is left "playing" with no player to finish:
      until the socket goes down, capture never starts again. */
  lemma {:induction false} NanoPlaybackWedged(s: State, inputs: seq<Input>)
    requires s.playing && s.pendingFinishes == 0
    requires AllSocketUp(inputs)
    ensures Run(Nano, s, inputs).state.playing
    ensures StartCapture !in Run(Nano, s, inputs).out
    decreases |inputs|
  {
    if |inputs| > 0 {
      var t := Step(Nano, s, inputs[0].event, inputs[0].env);
      NanoStepStuckPlaying(s, inputs[0].event, inputs[0].env);
      NanoPlaybackWedged(t.state, inputs[1..]);
    }
  }

  /** The missing FIFO is reachable: the first session.updated wedges nano. */
  lemma NanoMissingFifoWedges(s: State, env: Env)
    requires !s.sessionConfigured && !s.isRecording && !s.hasStream && !s.inProgress && !s.playing && !env.captureOk
    ensures var r := Step(Nano, s, SessionUpdated, env).state;
      r.isRecording && !r.hasStream
  {
  }
}
